=== FILE: README.md ===
# Trivia API request handlers, modelled in Dafny

This project models the request-handling layer of the trivia question API
(`backend/flaskr/__init__.py`). The API serves categories and paginated questions. It also creates,
deletes and searches questions, lists the questions of one category, and draws the next quiz
question. The database is replaced by an in-memory store: a sequence of
questions and a sequence of categories, each in the order the database
returns its rows. Every route is a pure function (or, where the source
chooses a value, a method) from the store and the request to the response.
The two routes that change data also return the store after the request.

How the model is laid out:

- `Wrappers` holds `Option`.
- `Http` holds the four statuses and their fixed messages, and the error body.
  `Result` is a value or a raised exception: an `abort`, or a store error. It
  works with `:-`, so an exception propagates through handler code as it does in
  Python. `Rescue` is the source's bare `try ... except: abort(code)`: it catches
  every exception, including an `abort` raised inside the `try`.
- `Requests` holds the JSON bodies. Each key is `Absent`, `Null` or `Present`.
  `Get` is `dict.get(key, None)`, so a missing key and a null value both read as `None`.
- `Models` holds the `Question`, `Category` and `Store` records and the
  queries. `Filter` plays the part of SQL `WHERE`. `QuestionById` and
  `CategoryById` are `one_or_none()`: they raise when several rows match.
  `RemoveQuestion` and `Insert` are the two writes. A category's `type`
  column is called `kind`, because `type` is a Dafny keyword.
- `Slices` is Python's `list[start:stop]`, negative bounds included.
- `Pagination` is the `pagination` helper, with `QUESTIONS_PER_PAGE = 10`.
- `Like` is PostgreSQL's `ILIKE` (the project's test suite is configured for a PostgreSQL database, backend/test_flaskr.py:29). In a
  pattern, `%` matches any run of characters, `_` matches one character, and a
  backslash escapes the next character. Letters compare case-insensitively.
- `Listing` is `format_categories`, `GET /categories`, `GET /questions` and
  `GET /categories/<id>/questions`.
- `Editing` is `DELETE /questions/<id>` and `POST /questions`.
- `Search` is `POST /questions/search`.
- `Quiz` is `POST /quizzes`. The random draw is a nondeterministic choice
  (`:|`) from the candidate list.

A store that raises is modelled by one flag, `fault`: when it is set, every
store call raises, so the first store call a handler makes is the one that
fails. This exposes the status each handler maps that failure to.
`GET /questions` maps it to 404 and every other handler to 422.

Behaviour of the handlers a reader might not expect:

- With an empty category table, `GET /categories` answers 422, not 404. The
  `abort(404)` is caught by the handler's bare `except`, which aborts with 422.
- `POST /questions` accepts empty strings, although the route's comment
  (lines 126-128) says it requires the question and answer text. The checks
  are `is None` only, so only a missing key or a null value is rejected.
- A `page` of 0 or below is not rejected: Python reads the negative slice
  bounds from the end of the list. Page 0 is always empty. `GET /questions`
  therefore answers it with 404, while `GET /categories/<id>/questions`,
  which has no emptiness check, answers it for an existing category with
  success and no questions. Page -1 serves questions counted back from the
  end whenever there are more than 10.
- In the category-0 quiz draw, an empty candidate list makes `random.choice`
  raise (line 249): the `questions == None` check before it never holds.
  This is a server error, so the model excludes it by precondition.

## Model

| member | source | states |
|---|---|---|
| Http.HandlerFor | backend/flaskr/__init__.py:288-315 | each of 400, 404, 405 and 422 has exactly one registered handler, whose status has that code; no other code has one |
| Http.ErrorResponse | backend/flaskr/__init__.py:288-315 | an error body exists exactly for 400, 404, 405 and 422; it has `success` false, `error` equal to the code, and that status's fixed message |
| Slices.Slice | backend/flaskr/__init__.py:73 | Python slicing never returns more elements than the list has, and always returns a contiguous run `s[lo..hi]` of it |
| Slices.SliceWidth | backend/flaskr/__init__.py:73 | a slice never holds more elements than its two bounds are apart |
| Slices.SliceFromEnd | backend/flaskr/__init__.py:73 | negative bounds select the window counted back from the end of the list, clipped at its start |
| Pagination.Paginate | backend/flaskr/__init__.py:68-73 | whatever the page argument, a page has at most 10 questions, is a contiguous run of the list in list order, and holds only questions of the list |
| Pagination.PageWindow | backend/flaskr/__init__.py:68-73 | for page >= 1 the page is exactly items [(page-1)*10, page*10), cut at the end of the list |
| Pagination.DefaultPageIsFirst | backend/flaskr/__init__.py:69 | a missing or non-integer page argument serves the first 10 questions |
| Pagination.PageEmptyIff | backend/flaskr/__init__.py:68-73 | for page >= 1 the page is empty exactly when (page-1)*10 is at least the number of questions |
| Pagination.PageZeroIsEmpty | backend/flaskr/__init__.py:70-73 | page 0 is always empty |
| Pagination.NegativePageCountsFromEnd | backend/flaskr/__init__.py:70-73 | a negative page p serves the items from len+(p-1)*10 to len+p*10, each bound raised to at least 0 |
| Pagination.PagesTile | backend/flaskr/__init__.py:68-73 | pages 1..k put one after another are exactly the first 10*k questions, so every question is shown once, on one page |
| Pagination.ItemOnItsPage | backend/flaskr/__init__.py:68-73 | the question at position i appears on page i/10+1, at position i%10 |
| Models.Filter | backend/flaskr/__init__.py:243 | a filtered query returns exactly the rows satisfying the condition, and no more rows than the table |
| Models.FilterCounts | backend/flaskr/__init__.py:243 | a filtered query keeps each matching row as often as it occurs and drops every other row |
| Models.QuestionById | backend/flaskr/__init__.py:109 | the lookup finds nothing exactly when no question has the id; a found question has that id; with unique ids it never raises |
| Models.CategoryById | backend/flaskr/__init__.py:203 | the lookup finds nothing exactly when no category has the id; a found category has that id; with unique ids it never raises |
| Models.RemoveExactlyOne | backend/flaskr/__init__.py:116 | with unique ids, deleting the row with id `qs[i].id` leaves exactly `qs[..i] + qs[i+1..]` |
| Models.Insert | backend/flaskr/__init__.py:147 | inserting a row stores exactly that row besides the existing ones, all kept, so the table grows by one; it adds exactly its id to the ids in use and leaves the categories alone; with a fresh id it keeps ids unique and a lookup of that id returns the row with its fields |
| Models.FreshIdExists | backend/flaskr/__init__.py:147 | the store can always assign a non-negative id not in use |
| Models.LookupOfAppended | backend/test_flaskr.py:100-106 | after a question with a fresh id is inserted, looking its id up returns exactly that question |
| Listing.CategoryMap | backend/flaskr/__init__.py:33-37 | the dictionary's keys are exactly the category ids; every id maps to the type of the last row with that id |
| Listing.CategoryMapOfUniqueIds | backend/flaskr/__init__.py:33-37 | with unique ids every category's id maps to its own type |
| Listing.GetCategories | backend/flaskr/__init__.py:39-54 | the route never answers 404: every failure is 422, an empty table included; it succeeds exactly when the store works and has a category; `total_cats` is the row count and the keys are the category ids |
| Listing.GetQuestions | backend/flaskr/__init__.py:75-96 | every failure is 404, never 422; it succeeds exactly when the store works and the page is non-empty; a success holds 1 to 10 questions, the full question count and `current_category` 0 |
| Listing.GetQuestionsPastLastPage | backend/flaskr/__init__.py:78-81 | for page >= 1 the route fails exactly when the page starts past the last question, at or beyond the end of the list, so an empty store gives 404 for every such page |
| Listing.GetQuestionsWindow | backend/flaskr/__init__.py:78-81 | a successful page p >= 1 holds the questions at positions [(p-1)*10, p*10) of the table |
| Listing.GetCategoryQuestions | backend/flaskr/__init__.py:199-221 | an unknown category is 404 and a store error 422; an existing category succeeds; the page holds only that category's questions, at most 10; `num_cat_questions` is the page length, `total_questions` the global count, `current_category` the id |
| Listing.EmptyCategoryPageIsSuccess | backend/flaskr/__init__.py:206-221 | an existing category whose requested page is empty is a success with no questions |
| Editing.DeleteQuestion | backend/flaskr/__init__.py:105-122 | an unknown id is 404 and a store error 422, both leaving the store unchanged; a success returns the id, removes every row with that id, keeps every other question and the categories |
| Editing.DeleteRemovesExactlyOne | backend/flaskr/__init__.py:105-122 | on a valid store, deleting an existing id succeeds, leaves exactly the other rows in order, and keeps the store valid |
| Editing.PostQuestion | backend/flaskr/__init__.py:134-153 | a missing or null field is 400 and a store error 422, both leaving the store unchanged; empty question and answer strings are accepted; otherwise exactly one question is appended, with the given fields and a fresh id that is returned; validity is kept |
| Editing.DeleteUndoesInsert | backend/flaskr/__init__.py:105-153 | deleting the id a question was just created with succeeds and restores the store exactly |
| Like.CompileRender | backend/flaskr/__init__.py:176 | the escaped text of any token sequence compiles back to that sequence |
| Like.ContainsPatternIsWellFormed | backend/flaskr/__init__.py:176 | the search pattern `%term%` compiles for every term, so the database never rejects it |
| Like.ContainsPatternMatches | backend/flaskr/__init__.py:176 | `%`, the term's characters as literals, then `%`, matches a text exactly when the text contains the term, ignoring case |
| Like.EscapedSearchIsContainment | backend/flaskr/__init__.py:176 | ILIKE `%term%` with the term escaped is case-insensitive containment, for every term |
| Like.PlainSearchIsContainment | backend/flaskr/__init__.py:176 | for a term without `%`, `_` or a backslash, ILIKE `%term%` is case-insensitive containment |
| Search.QuestionSearch | backend/flaskr/__init__.py:166-190 | a missing or null term is 400; with a term, a failing store is 422 and otherwise the search succeeds; the results are the questions matching ILIKE `%term%`, `search_count` is their number, `total_questions` the full count, `current_category` 0 |
| Search.PlainTermFindsContaining | backend/flaskr/__init__.py:166-190 | for a term without `%`, `_` or a backslash the search succeeds and returns exactly the questions whose text contains the term, ignoring case |
| Search.UnderscoreMatchesAnyCharacter | backend/flaskr/__init__.py:176 | the term `a_c` finds the question `abc`, which does not contain it |
| Search.EscapedQuestionSearch | backend/flaskr/__init__.py:159-160 | with the term escaped, the status behaviour is that of the route (400 without a term, 422 for a failing store), and the results are exactly the questions whose text contains the term, ignoring case, for every term |
| Quiz.Candidates | backend/flaskr/__init__.py:243-271 | the candidates are exactly the questions not among the previous ones and, for a nonzero category id, in that category |
| Quiz.Crashes | backend/flaskr/__init__.py:240-249 | the requests the handler has no answer for: both keys are present (so they are past the 400 check); with a failing store only a missing `id` key crashes, since the query failure is caught; a crash with an `id` present is the category-0 draw from an empty candidate list |
| Quiz.NextQuestion | backend/flaskr/__init__.py:233-281 | a missing `previous_questions` or `quiz_category` is 400; with both present, a failing store or a null category `id` is 422; a drawn question is in the store, was not seen before, and is in the requested category when the id is nonzero; an unknown category or an empty candidate list is 404; with unique category ids a nonzero category succeeds exactly when it exists and has candidates; category 0 always succeeds on a working store |
| Quiz.EmptyCategoryHasNoCandidates | backend/flaskr/__init__.py:266-273 | a category with no questions has no candidates either, so the `len(cat_questions) == 0` check never changes the answer |

## Left out

- Flask application set-up, routing, CORS and the `after_request` headers: framework plumbing with no behaviour of the handlers.
- SQLAlchemy sessions, the table definitions and transactions: the store is two in-memory sequences. `models.py` is not part of this model.
- Row order: `query.all()` and `cat.questions` have no specified order, so the store's sequence order is taken as given. A new question is appended at the end.
- JSON serialisation, and the `print` of the new question in `post_question`.
- The 405 handler is only in the status table: the framework raises it, not handler code.
- Failures of the store are one flag that makes every store call raise, so only the first store call of each handler ever fails. A failure of a later call alone is not modelled. For the calls inside a `try` it would give the same status as the first. Three calls sit outside any `try`, and a failure there is an unhandled server error: `cat.questions` in `get_cat_questions` (line 214), and `cat.questions` and the candidate query in `get_next_question` (lines 266 and 271).
- JSON values of another type than the handler expects: the model takes `searchTerm`, `question` and `answer` as strings, `previous_questions` as a list of integers and the `quiz_category` `id` as an integer. For example, the source compares an `id` of `"0"` with `0` at line 240, finds them unequal and takes the named-category branch; the model cannot express that request.
- `request.get_json()` returning no JSON object: `.get` on it raises, which is a server error.
- `int(difficulty)` on a string or a float: the model takes `difficulty` and `category` as integers. `int()` of a non-numeric value is a server error.
- Parsing of the `page` argument: it is given as an optional integer. `None` stands for a missing value or one `int()` rejects.
- Server errors the handlers do not map to a status are excluded by `Quiz.Crashes`: a `quiz_category` without an `id` key, and the category-0 draw with no candidates. A null `id` is modelled: `int(None)` raises inside the `try`, giving 422.
- Case-insensitive comparison covers ASCII letters only. PostgreSQL's locale-dependent case folding is not modelled.
- Editing.PostQuestion: promises only a fresh non-negative id, not the next value of the database's id sequence, because the column definitions are not part of this model.
- Quiz.NextQuestion: states only that the drawn question is one of the candidates, not that every candidate is equally likely, because the draw is modelled as a nondeterministic choice.

## Findings

| source | as written | input that shows it | evidently intended | confidence | as-written member | corrected member |
|---|---|---|---|---|---|---|
| backend/flaskr/__init__.py:176 | the search term is put into the `ILIKE` pattern unescaped, so `%`, `_` and backslash in the term act as pattern syntax | `searchTerm` `a_c` returns the question `abc`, which does not contain `a_c` | the route's documentation (lines 159-160) asks for the questions of which the term is a substring | medium; not executed | Search.UnderscoreMatchesAnyCharacter | Search.EscapedQuestionSearch |

=== FILE: editing.dfy ===
/** The routes that change the store: `DELETE /questions/<id>` and
    `POST /questions`. Each returns its response together with the store
    after the request. `fault` stands for a store that raises on every call. */
module Editing {
  import opened Wrappers
  import opened Http
  import opened Requests
  import opened Models

  datatype DeletedPayload = DeletedPayload(deleted: int)

  /** `DELETE /questions/<id>`. The lookup's failure is 422, a missing row 404;
      otherwise the row is deleted and its id returned. */
  function DeleteQuestion(s: Store, id: nat, fault: bool): (r: (Result<DeletedPayload>, Store))
    ensures Answered(r.0)
    ensures r.0.Fail? ==> r.0.raised.status in {NotFound, Unprocessable} && r.1 == s
    ensures fault ==> r.0 == Fail(Abort(Unprocessable))
    ensures !fault && id !in QuestionIds(s.questions) ==> r.0 == Fail(Abort(NotFound))
    ensures !fault && UniqueQuestionIds(s.questions) && id in QuestionIds(s.questions) ==> r.0.Ok?
    ensures r.0.Ok? ==> r.0.value.deleted == id && id in QuestionIds(s.questions)
    ensures r.0.Ok? ==> id !in QuestionIds(r.1.questions) && r.1.categories == s.categories
    ensures r.0.Ok? ==> forall q :: q in r.1.questions <==> q in s.questions && q.id != id
  {
    var found := Rescue(Query(fault, QuestionById(s.questions, id)), Unprocessable);
    if found.Fail? then (Fail(found.raised), s)
    else if found.value.None? then (Fail(Abort(NotFound)), s)
    else (Ok(DeletedPayload(id)), s.(questions := RemoveQuestion(s.questions, found.value.value.id)))
  }

  /** On a valid store, a successful delete removes exactly the one row with
      that id, keeps every other row in order, and keeps the store valid. */
  lemma DeleteRemovesExactlyOne(s: Store, i: int)
    requires Valid(s)
    requires 0 <= i < |s.questions| && s.questions[i].id >= 0
    ensures var r := DeleteQuestion(s, s.questions[i].id, false);
            && r.0 == Ok(DeletedPayload(s.questions[i].id))
            && r.1 == Store(s.questions[..i] + s.questions[i + 1..], s.categories)
            && Valid(r.1)
  {
    RemoveExactlyOne(s.questions, i);
    UniqueAfterRemove(s.questions, i);
  }

  /** `question is None or answer is None or ...`: a missing key or a null
      value fails; an empty string does not. */
  predicate MissingField(body: CreateBody) {
    || Get(body.question).None?
    || Get(body.answer).None?
    || Get(body.category).None?
    || Get(body.difficulty).None?
  }

  datatype CreatedPayload = CreatedPayload(created: int)

  /** `POST /questions`. The store assigns the new row an id not in use. */
  method PostQuestion(s: Store, body: CreateBody, fault: bool) returns (r: Result<CreatedPayload>, t: Store)
    ensures Answered(r)
    ensures MissingField(body) ==> r == Fail(Abort(BadRequest)) && t == s
    ensures !MissingField(body) && fault ==> r == Fail(Abort(Unprocessable)) && t == s
    ensures !MissingField(body) && !fault ==> r.Ok?
    ensures (&& body.question == Present("") && body.answer == Present("")
             && body.category.Present? && body.difficulty.Present? && !fault) ==> r.Ok?
    ensures r.Ok? ==> r.value.created >= 0 && r.value.created !in QuestionIds(s.questions)
    ensures r.Ok? ==> t == Insert(s, Question(r.value.created, body.question.value, body.answer.value,
                                              body.category.value, body.difficulty.value))
    ensures r.Ok? ==> |t.questions| == |s.questions| + 1 && t.categories == s.categories
    ensures Valid(s) ==> Valid(t)
  {
    if MissingField(body) {
      return Fail(Abort(BadRequest)), s;
    }
    if fault {
      return Fail(Abort(Unprocessable)), s;
    }
    FreshIdExists(s.questions);
    var id: nat :| id !in QuestionIds(s.questions);
    var q := Question(id, body.question.value, body.answer.value, body.category.value, body.difficulty.value);
    return Ok(CreatedPayload(id)), Insert(s, q);
  }

  /** Creating a question and then deleting the id it was given restores the store. */
  lemma DeleteUndoesInsert(s: Store, q: Question)
    requires q.id >= 0 && q.id !in QuestionIds(s.questions)
    ensures DeleteQuestion(Insert(s, q), q.id, false) == (Ok(DeletedPayload(q.id)), s)
  {
    var t := Insert(s, q);
    assert t.questions == s.questions + [q];
    LookupOfAppended(s.questions, q);
    RemoveAppended(s.questions, q);
  }
}

=== FILE: http.dfy ===
/** Status codes and error bodies of the trivia API, and the way handler code
    ends: with a value, or with a raised exception that propagates like a
    Python exception until an `except` turns it into an HTTP abort. */
module Http {
  import opened Wrappers

  /** The four statuses the application registers error handlers for. */
  datatype Status = BadRequest | NotFound | MethodNotAllowed | Unprocessable

  function Code(s: Status): int {
    match s
    case BadRequest => 400
    case NotFound => 404
    case MethodNotAllowed => 405
    case Unprocessable => 422
  }

  function Message(s: Status): string {
    match s
    case BadRequest => "Bad Request"
    case NotFound => "not found"
    case MethodNotAllowed => "Method Not Allowed"
    case Unprocessable => "unprocessable"
  }

  /** The error handler registered for a numeric status, if any. */
  function HandlerFor(code: int): (r: Option<Status>)
    ensures r.Some? ==> Code(r.value) == code
    ensures forall s: Status :: Code(s) == code ==> r == Some(s)
  {
    if code == 400 then Some(BadRequest)
    else if code == 404 then Some(NotFound)
    else if code == 405 then Some(MethodNotAllowed)
    else if code == 422 then Some(Unprocessable)
    else None
  }

  /** The JSON envelope every error handler answers with. */
  datatype ErrorBody = ErrorBody(success: bool, error: int, message: string)

  /** The body sent for an abort with the given code; None when no handler
      of the application is registered for it. */
  function ErrorResponse(code: int): (r: Option<ErrorBody>)
    ensures r.Some? <==> code in {400, 404, 405, 422}
    ensures r.Some? ==> !r.value.success && r.value.error == code
    ensures r.Some? ==> exists s: Status :: Code(s) == code && r.value.message == Message(s)
  {
    match HandlerFor(code)
    case None => None
    case Some(s) => Some(ErrorBody(false, Code(s), Message(s)))
  }

  /** What handler code can raise: an HTTP abort, or an error thrown by the store. */
  datatype Raised = Abort(status: Status) | StoreError

  /** The end of running a block of handler code. Failure-compatible, so that
      `var x :- e;` propagates a raised exception the way Python does. */
  datatype Result<T> = Ok(value: T) | Fail(raised: Raised) {
    predicate IsFailure() {
      Fail?
    }

    function PropagateFailure<U>(): Result<U>
      requires Fail?
    {
      Fail(raised)
    }

    function Extract(): T
      requires Ok?
    {
      value
    }
  }

  /** `try: <block> except: abort(status)`: the bare `except` catches every
      exception, an `abort` raised inside the block included. */
  function Rescue<T>(r: Result<T>, status: Status): Result<T> {
    if r.Ok? then r else Fail(Abort(status))
  }

  /** A store call: raises when the store is failing, otherwise yields `r`. */
  function Query<T>(fault: bool, r: Result<T>): Result<T> {
    if fault then Fail(StoreError) else r
  }

  /** An outcome the client can see as a response: a value, or an abort that
      one of the error handlers answers. A store exception never escapes. */
  predicate Answered<T>(r: Result<T>) {
    r.Ok? || r.raised.Abort?
  }
}

=== FILE: like.dfy ===
/** PostgreSQL's `text ILIKE pattern`: in the pattern `%` matches any run of
    characters, `_` any single character, and a backslash makes the next
    character literal; letters compare without regard to case. */
module Like {
  import opened Wrappers

  /** One element of a compiled pattern. */
  datatype Token = AnyString | AnyChar | Literal(c: char)

  const Escape: char := '\\'

  predicate IsSpecial(c: char) {
    c == '%' || c == '_' || c == Escape
  }

  function Cons(t: Token, rest: Option<seq<Token>>): Option<seq<Token>> {
    if rest.Some? then Some([t] + rest.value) else None
  }

  /** Reads a pattern into tokens. A pattern that ends in a lone escape
      character is malformed (PostgreSQL raises an error for it): None. */
  function Compile(p: string): Option<seq<Token>>
    decreases |p|
  {
    if p == [] then Some([])
    else if p[0] == Escape then
      if |p| == 1 then None else Cons(Literal(p[1]), Compile(p[2..]))
    else if p[0] == '%' then Cons(AnyString, Compile(p[1..]))
    else if p[0] == '_' then Cons(AnyChar, Compile(p[1..]))
    else Cons(Literal(p[0]), Compile(p[1..]))
  }

  function RenderToken(t: Token): string {
    match t
    case AnyString => "%"
    case AnyChar => "_"
    case Literal(c) => if IsSpecial(c) then [Escape, c] else [c]
  }

  /** Pattern text for a token sequence: wildcards bare, special characters escaped. */
  function Render(toks: seq<Token>): string {
    if toks == [] then [] else RenderToken(toks[0]) + Render(toks[1..])
  }

  lemma {:induction false} RenderAppend(a: seq<Token>, b: seq<Token>)
    ensures Render(a + b) == Render(a) + Render(b)
    decreases |a|
  {
    if a == [] {
      assert a + b == b;
    } else {
      assert (a + b)[0] == a[0];
      assert (a + b)[1..] == a[1..] + b;
      RenderAppend(a[1..], b);
    }
  }

  /** Compiling the rendered text of any token sequence gives that sequence back. */
  lemma {:induction false} CompileRender(toks: seq<Token>)
    ensures Compile(Render(toks)) == Some(toks)
    decreases |toks|
  {
    if toks != [] {
      var head, rest := RenderToken(toks[0]), Render(toks[1..]);
      CompileRender(toks[1..]);
      assert Render(toks) == head + rest;
      assert [toks[0]] + toks[1..] == toks;
      match toks[0]
      case AnyString =>
        assert (head + rest)[1..] == rest;
      case AnyChar =>
        assert (head + rest)[1..] == rest;
      case Literal(c) =>
        if IsSpecial(c) {
          assert (head + rest)[2..] == rest;
        } else {
          assert (head + rest)[1..] == rest;
        }
    }
  }

  /** ASCII lower-casing. */
  function Lower(c: char): char {
    if 'A' <= c <= 'Z' then (c as int + 32) as char else c
  }

  function LowerAll(s: string): (r: string)
    ensures |r| == |s|
  {
    seq(|s|, i requires 0 <= i < |s| => Lower(s[i]))
  }

  /** Whether the whole of `s` matches the tokens, letters compared without case. */
  predicate Matches(toks: seq<Token>, s: string)
    decreases |toks|, |s|
  {
    if toks == [] then s == []
    else match toks[0]
      case AnyString => Matches(toks[1..], s) || (s != [] && Matches(toks, s[1..]))
      case AnyChar => s != [] && Matches(toks[1..], s[1..])
      case Literal(c) => s != [] && Lower(s[0]) == Lower(c) && Matches(toks[1..], s[1..])
  }

  /** `text ILIKE pattern`; None when the pattern is malformed. */
  function ILike(text: string, pattern: string): Option<bool> {
    var toks := Compile(pattern);
    if toks.None? then None else Some(Matches(toks.value, text))
  }

  /** Independent reference for case-insensitive containment, as
      `term.lower() in text.lower()` with ASCII lower-casing. */
  predicate OccursAt(text: string, term: string, k: nat) {
    k + |term| <= |text| && LowerAll(text[k..k + |term|]) == LowerAll(term)
  }

  predicate ContainsIgnoringCase(text: string, term: string) {
    exists k: nat | k <= |text| :: OccursAt(text, term, k)
  }

  /** A term with no character LIKE treats specially. */
  predicate Plain(term: string) {
    forall i :: 0 <= i < |term| ==> !IsSpecial(term[i])
  }

  /** Each character of the term as a literal token. */
  function Literals(term: string): (r: seq<Token>)
    ensures |r| == |term|
  {
    seq(|term|, i requires 0 <= i < |term| => Literal(term[i]))
  }

  /** The term written so that LIKE reads every character of it literally. */
  function EscapeLike(term: string): string {
    Render(Literals(term))
  }

  lemma {:induction false} PlainRendersAsItself(term: string)
    requires Plain(term)
    ensures EscapeLike(term) == term
    decreases |term|
  {
    if term != [] {
      assert Literals(term)[1..] == Literals(term[1..]);
      PlainRendersAsItself(term[1..]);
      assert term == [term[0]] + term[1..];
    }
  }

  /** `"%" + EscapeLike(term) + "%"` compiles to: anything, the term's characters, anything. */
  lemma ContainsPatternCompiles(term: string)
    ensures Compile("%" + EscapeLike(term) + "%") == Some([AnyString] + Literals(term) + [AnyString])
  {
    var toks := [AnyString] + Literals(term) + [AnyString];
    RenderAppend([AnyString], Literals(term));
    RenderAppend([AnyString] + Literals(term), [AnyString]);
    assert Render([AnyString]) == "%" by {
      assert [AnyString][1..] == [];
    }
    CompileRender(toks);
  }

  /** `%` followed by the rest matches when the rest matches some suffix. */
  lemma {:induction false} LeadingAnyString(rest: seq<Token>, s: string)
    ensures Matches([AnyString] + rest, s) <==> exists k :: 0 <= k <= |s| && Matches(rest, s[k..])
    decreases |s|
  {
    var toks := [AnyString] + rest;
    assert toks[0] == AnyString && toks[1..] == rest;
    assert s[0..] == s;
    if s != [] {
      LeadingAnyString(rest, s[1..]);
      if Matches(toks, s[1..]) {
        var k :| 0 <= k <= |s[1..]| && Matches(rest, s[1..][k..]);
        assert s[1..][k..] == s[k + 1..];
      }
      if exists k :: 0 <= k <= |s| && Matches(rest, s[k..]) {
        var k :| 0 <= k <= |s| && Matches(rest, s[k..]);
        if k > 0 {
          assert s[1..][k - 1..] == s[k..];
        }
      }
    }
  }

  lemma {:induction false} AnyStringMatchesAll(s: string)
    ensures Matches([AnyString], s)
    decreases |s|
  {
    assert [AnyString][1..] == [];
    if s != [] {
      AnyStringMatchesAll(s[1..]);
    }
  }

  /** The term's literals followed by `%` match exactly the strings that start
      with the term, up to case. */
  lemma {:induction false} LiteralsThenAnyString(term: string, s: string)
    ensures Matches(Literals(term) + [AnyString], s)
        <==> |term| <= |s| && LowerAll(s[..|term|]) == LowerAll(term)
    decreases |term|
  {
    if term == [] {
      assert Literals(term) + [AnyString] == [AnyString];
      AnyStringMatchesAll(s);
    } else {
      var toks := Literals(term) + [AnyString];
      assert toks[0] == Literal(term[0]);
      assert toks[1..] == Literals(term[1..]) + [AnyString];
      if s != [] {
        LiteralsThenAnyString(term[1..], s[1..]);
        if |term| <= |s| {
          var a, b := LowerAll(s[..|term|]), LowerAll(term);
          assert a == b <==> a[0] == b[0] && a[1..] == b[1..];
          assert a[1..] == LowerAll(s[1..][..|term| - 1]);
          assert b[1..] == LowerAll(term[1..]);
        }
      }
    }
  }

  /** `%term%` with the term read literally matches exactly the texts that
      contain the term, up to case. */
  lemma ContainsPatternMatches(term: string, text: string)
    ensures Matches([AnyString] + Literals(term) + [AnyString], text) <==> ContainsIgnoringCase(text, term)
  {
    var rest := Literals(term) + [AnyString];
    assert [AnyString] + Literals(term) + [AnyString] == [AnyString] + rest;
    LeadingAnyString(rest, text);
    if ContainsIgnoringCase(text, term) {
      var k: nat :| k <= |text| && OccursAt(text, term, k);
      LiteralsThenAnyString(term, text[k..]);
      assert text[k..][..|term|] == text[k..k + |term|];
    }
    if Matches([AnyString] + rest, text) {
      var k :| 0 <= k <= |text| && Matches(rest, text[k..]);
      LiteralsThenAnyString(term, text[k..]);
      assert text[k..][..|term|] == text[k..k + |term|];
      assert OccursAt(text, term, k);
    }
  }

  /** ILIKE '%term%' with the escaped term is case-insensitive containment, for every term. */
  lemma EscapedSearchIsContainment(text: string, term: string)
    ensures ILike(text, "%" + EscapeLike(term) + "%") == Some(ContainsIgnoringCase(text, term))
  {
    ContainsPatternCompiles(term);
    ContainsPatternMatches(term, text);
  }

  /** For a term without `%`, `_` or a backslash, the unescaped pattern
      '%term%' is case-insensitive containment as well. */
  lemma PlainSearchIsContainment(text: string, term: string)
    requires Plain(term)
    ensures ILike(text, "%" + term + "%") == Some(ContainsIgnoringCase(text, term))
  {
    PlainRendersAsItself(term);
    EscapedSearchIsContainment(text, term);
  }

  /** '%term%' is never malformed, whatever the term. */
  lemma ContainsPatternIsWellFormed(term: string)
    ensures Compile("%" + term + "%").Some?
  {
    var p := "%" + term + "%";
    assert p[0] == '%' && p[1..] == term + "%";
    CompileTail(term);
  }

  /** Any text followed by `%` compiles: the escape character is never last. */
  lemma {:induction false} CompileTail(t: string)
    ensures Compile(t + "%").Some?
    decreases |t|
  {
    if t == [] {
      assert t + "%" == "%";
      assert "%"[1..] == [];
    } else if t[0] == Escape && |t| == 1 {
      assert (t + "%")[2..] == [];
    } else if t[0] == Escape {
      assert (t + "%")[2..] == t[2..] + "%";
      CompileTail(t[2..]);
    } else {
      assert (t + "%")[1..] == t[1..] + "%";
      CompileTail(t[1..]);
    }
  }
}

=== FILE: listing.dfy ===
/** The read-only listing routes: `GET /categories`, `GET /questions` and
    `GET /categories/<id>/questions`, with the `format_categories` helper.
    `fault` stands for a store that raises on every query. */
module Listing {
  import opened Wrappers
  import opened Http
  import opened Models
  import opened Pagination

  /** Category `i` is the last row carrying its id. */
  predicate LastWithItsId(cats: seq<Category>, i: int)
    requires 0 <= i < |cats|
  {
    forall j :: i < j < |cats| ==> cats[j].id != cats[i].id
  }

  /** `format_categories`: a dictionary from category id to its type, filled
      row by row, so a later row with the same id overwrites an earlier one. */
  function CategoryMap(cats: seq<Category>): (m: map<int, string>)
    ensures m.Keys == CategoryIds(cats)
    ensures forall i :: 0 <= i < |cats| && LastWithItsId(cats, i) ==> m[cats[i].id] == cats[i].kind
  {
    if cats == [] then map[]
    else
      var init := cats[..|cats| - 1];
      var last := cats[|cats| - 1];
      assert cats == init + [last];
      assert forall i :: 0 <= i < |init| ==> init[i] == cats[i];
      CategoryMap(init)[last.id := last.kind]
  }

  /** With unique ids every category's id maps to its own type. */
  lemma CategoryMapOfUniqueIds(cats: seq<Category>)
    requires UniqueCategoryIds(cats)
    ensures forall c :: c in cats ==> CategoryMap(cats)[c.id] == c.kind
  {
    forall c | c in cats ensures CategoryMap(cats)[c.id] == c.kind {
      var i :| 0 <= i < |cats| && cats[i] == c;
      assert LastWithItsId(cats, i);
    }
  }

  datatype CategoriesPayload = CategoriesPayload(categories: map<int, string>, totalCats: nat)

  function CategoriesTry(s: Store, fault: bool): Result<CategoriesPayload> {
    var cats :- Query(fault, Ok(s.categories));
    if |cats| == 0 then Fail(Abort(NotFound))
    else Ok(CategoriesPayload(CategoryMap(cats), |cats|))
  }

  /** `GET /categories`. The 404 raised for an empty table sits inside the
      handler's bare `try`, whose `except` re-raises every error as 422. */
  function GetCategories(s: Store, fault: bool): (r: Result<CategoriesPayload>)
    ensures r.Fail? ==> r.raised == Abort(Unprocessable)
    ensures r.Ok? <==> !fault && |s.categories| > 0
    ensures r.Ok? ==> r.value.totalCats == |s.categories|
    ensures r.Ok? ==> r.value.categories.Keys == CategoryIds(s.categories)
    ensures r.Ok? && UniqueCategoryIds(s.categories) ==>
              forall c :: c in s.categories ==> r.value.categories[c.id] == c.kind
  {
    assert UniqueCategoryIds(s.categories) ==>
             forall c :: c in s.categories ==> CategoryMap(s.categories)[c.id] == c.kind by {
      if UniqueCategoryIds(s.categories) {
        CategoryMapOfUniqueIds(s.categories);
      }
    }
    Rescue(CategoriesTry(s, fault), Unprocessable)
  }

  datatype QuestionsPayload = QuestionsPayload(
    questions: seq<Question>,
    totalQuestions: nat,
    categories: map<int, string>,
    currentCategory: int)

  function QuestionsTry(s: Store, page: Option<int>, fault: bool): Result<QuestionsPayload> {
    var selection :- Query(fault, Ok(s.questions));
    var questions := Paginate(selection, page);
    if |questions| == 0 then Fail(Abort(NotFound))
    else
      var cats :- Query(fault, Ok(s.categories));
      var total :- Query(fault, Ok(|s.questions|));
      Ok(QuestionsPayload(questions, total, CategoryMap(cats), 0))
  }

  /** `GET /questions?page=N`. Every failure inside the handler's `try`,
      the 404 for an empty page included, is answered with 404. */
  function GetQuestions(s: Store, page: Option<int>, fault: bool): (r: Result<QuestionsPayload>)
    ensures r.Fail? ==> r.raised == Abort(NotFound)
    ensures r.Ok? <==> !fault && Paginate(s.questions, page) != []
    ensures r.Ok? ==> r.value.questions == Paginate(s.questions, page)
    ensures r.Ok? ==> 0 < |r.value.questions| <= QuestionsPerPage
    ensures r.Ok? ==> r.value.totalQuestions == |s.questions| && r.value.currentCategory == 0
    ensures r.Ok? ==> r.value.categories.Keys == CategoryIds(s.categories)
  {
    Rescue(QuestionsTry(s, page, fault), NotFound)
  }

  /** A page of 1 or more that starts past the last question is 404, and so
      is every such page of an empty store; earlier pages are served. */
  lemma GetQuestionsPastLastPage(s: Store, page: int)
    requires page >= 1
    ensures GetQuestions(s, Some(page), false).Fail?
        <==> (page - 1) * QuestionsPerPage >= |s.questions|
  {
    PageEmptyIff(s.questions, page);
  }

  /** A successful listing of page p >= 1 holds the questions at positions
      [(p-1)*10, p*10) of the table. */
  lemma GetQuestionsWindow(s: Store, page: int)
    requires page >= 1
    requires GetQuestions(s, Some(page), false).Ok?
    ensures GetQuestions(s, Some(page), false).value.questions
         == s.questions[(page - 1) * QuestionsPerPage..Slices.Min(page * QuestionsPerPage, |s.questions|)]
  {
    PageWindow(s.questions, page);
    PageEmptyIff(s.questions, page);
  }

  datatype CategoryQuestionsPayload = CategoryQuestionsPayload(
    questions: seq<Question>,
    numCatQuestions: nat,
    totalQuestions: nat,
    currentCategory: int)

  /** The part of `GET /categories/<id>/questions` after the category with
      that id has been found: count the questions, serve its page. */
  function CategoryPage(s: Store, id: nat, page: Option<int>, fault: bool): Result<CategoryQuestionsPayload> {
    var total :- Rescue(Query(fault, Ok(|s.questions|)), Unprocessable);
    var questions := Paginate(QuestionsOf(s.questions, id), page);
    Ok(CategoryQuestionsPayload(questions, |questions|, total, id))
  }

  /** `GET /categories/<id>/questions?page=N`. The route's `int` converter
      matches only non-negative ids. */
  function GetCategoryQuestions(s: Store, id: nat, page: Option<int>, fault: bool): (r: Result<CategoryQuestionsPayload>)
    ensures Answered(r)
    ensures r.Fail? ==> r.raised.status in {NotFound, Unprocessable}
    ensures fault ==> r == Fail(Abort(Unprocessable))
    ensures !fault && id !in CategoryIds(s.categories) ==> r == Fail(Abort(NotFound))
    ensures !fault && UniqueCategoryIds(s.categories) && id in CategoryIds(s.categories) ==> r.Ok?
    ensures r.Ok? ==> id in CategoryIds(s.categories)
    ensures r.Ok? ==> forall q :: q in r.value.questions ==> q in s.questions && q.category == id
    ensures r.Ok? ==> r.value.questions == Paginate(QuestionsOf(s.questions, id), page)
    ensures r.Ok? ==> r.value.numCatQuestions == |r.value.questions| <= QuestionsPerPage
    ensures r.Ok? ==> r.value.totalQuestions == |s.questions| && r.value.currentCategory == id
  {
    var found := Rescue(Query(fault, CategoryById(s.categories, id)), Unprocessable);
    if found.Fail? then Fail(found.raised)
    else if found.value.None? then Fail(Abort(NotFound))
    else
      var served := CategoryPage(s, found.value.value.id, page, fault);
      assert served.Ok? ==> forall q :: q in served.value.questions ==> q in s.questions && q.category == id by {
        assert found.value.value.id == id;
      }
      served
  }

  /** An existing category whose page holds no question is still a success. */
  lemma EmptyCategoryPageIsSuccess(s: Store, id: nat, page: int)
    requires UniqueCategoryIds(s.categories) && id in CategoryIds(s.categories)
    requires page >= 1 && (page - 1) * QuestionsPerPage >= |QuestionsOf(s.questions, id)|
    ensures GetCategoryQuestions(s, id, Some(page), false) == Ok(CategoryQuestionsPayload([], 0, |s.questions|, id))
  {
    PageEmptyIff(QuestionsOf(s.questions, id), page);
  }
}

=== FILE: models.dfy ===
/** The two persisted entities and the in-memory store that stands in for the
    database tables, with the queries the handlers issue against them. */
module Models {
  import opened Wrappers
  import opened Http

  datatype Question = Question(id: int, question: string, answer: string, category: int, difficulty: int)

  /** A category; the source's `type` column is called `kind` here. */
  datatype Category = Category(id: int, kind: string)

  /** Both tables, each in the order the store returns its rows. */
  datatype Store = Store(questions: seq<Question>, categories: seq<Category>)

  /** The elements of `s` that satisfy `p`, in their order, as a SQL `WHERE` selects rows. */
  function Filter<T(!new)>(s: seq<T>, p: T -> bool): (r: seq<T>)
    ensures |r| <= |s|
    ensures forall x :: x in r <==> x in s && p(x)
    decreases |s|
  {
    if s == [] then []
    else
      assert s == [s[0]] + s[1..];
      (if p(s[0]) then [s[0]] else []) + Filter(s[1..], p)
  }

  lemma {:induction false} FilterAppend<T(!new)>(a: seq<T>, b: seq<T>, p: T -> bool)
    ensures Filter(a + b, p) == Filter(a, p) + Filter(b, p)
    decreases |a|
  {
    if a == [] {
      assert a + b == b;
    } else {
      var head := if p(a[0]) then [a[0]] else [];
      assert (a + b)[0] == a[0];
      assert (a + b)[1..] == a[1..] + b;
      assert Filter(a + b, p) == head + Filter(a[1..] + b, p);
      FilterAppend(a[1..], b, p);
      assert Filter(a, p) == head + Filter(a[1..], p);
    }
  }

  /** Each element is kept as often as it occurs, when it satisfies `p`. */
  lemma {:induction false} FilterCounts<T(!new)>(s: seq<T>, p: T -> bool)
    ensures forall x :: multiset(Filter(s, p))[x] == if p(x) then multiset(s)[x] else 0
    decreases |s|
  {
    if s != [] {
      FilterCounts(s[1..], p);
      assert s == [s[0]] + s[1..];
    }
  }

  lemma {:induction false} FilterEmpty<T(!new)>(s: seq<T>, p: T -> bool)
    ensures Filter(s, p) == [] <==> forall x :: x in s ==> !p(x)
    decreases |s|
  {
    if s != [] {
      FilterEmpty(s[1..], p);
      assert forall x :: x in s <==> x == s[0] || x in s[1..];
    }
  }

  lemma {:induction false} FilterKeepsAll<T(!new)>(s: seq<T>, p: T -> bool)
    requires forall x :: x in s ==> p(x)
    ensures Filter(s, p) == s
    decreases |s|
  {
    if s != [] {
      FilterKeepsAll(s[1..], p);
    }
  }

  function QuestionIds(qs: seq<Question>): set<int> {
    set q | q in qs :: q.id
  }

  function CategoryIds(cs: seq<Category>): set<int> {
    set c | c in cs :: c.id
  }

  /** Primary keys: no two rows of a table share an id. */
  predicate UniqueQuestionIds(qs: seq<Question>) {
    forall i, j :: 0 <= i < j < |qs| ==> qs[i].id != qs[j].id
  }

  predicate UniqueCategoryIds(cs: seq<Category>) {
    forall i, j :: 0 <= i < j < |cs| ==> cs[i].id != cs[j].id
  }

  predicate Valid(s: Store) {
    UniqueQuestionIds(s.questions) && UniqueCategoryIds(s.categories)
  }

  function HasId(id: int): Question -> bool {
    (q: Question) => q.id == id
  }

  function HasOtherId(id: int): Question -> bool {
    (q: Question) => q.id != id
  }

  function CategoryHasId(id: int): Category -> bool {
    (c: Category) => c.id == id
  }

  function InCategory(categoryId: int): Question -> bool {
    (q: Question) => q.category == categoryId
  }

  /** `.one_or_none()`: no row, one row, or an exception when several match. */
  function OneOrNone<T>(rows: seq<T>): Result<Option<T>> {
    if |rows| == 0 then Ok(None)
    else if |rows| == 1 then Ok(Some(rows[0]))
    else Fail(StoreError)
  }

  lemma {:induction false} AtMostOneWithId(qs: seq<Question>, id: int)
    requires UniqueQuestionIds(qs)
    ensures |Filter(qs, HasId(id))| <= 1
    decreases |qs|
  {
    if qs != [] {
      AtMostOneWithId(qs[1..], id);
      if qs[0].id == id {
        assert forall q :: q in qs[1..] ==> q.id != id by {
          forall q | q in qs[1..] ensures q.id != id {
            var j :| 0 <= j < |qs[1..]| && qs[1..][j] == q;
            assert qs[j + 1] == q;
          }
        }
        FilterEmpty(qs[1..], HasId(id));
      }
    }
  }

  lemma {:induction false} AtMostOneCategoryWithId(cs: seq<Category>, id: int)
    requires UniqueCategoryIds(cs)
    ensures |Filter(cs, CategoryHasId(id))| <= 1
    decreases |cs|
  {
    if cs != [] {
      AtMostOneCategoryWithId(cs[1..], id);
      if cs[0].id == id {
        assert forall c :: c in cs[1..] ==> c.id != id by {
          forall c | c in cs[1..] ensures c.id != id {
            var j :| 0 <= j < |cs[1..]| && cs[1..][j] == c;
            assert cs[j + 1] == c;
          }
        }
        FilterEmpty(cs[1..], CategoryHasId(id));
      }
    }
  }

  /** `Question.query.filter(Question.id == id).one_or_none()`. */
  function QuestionById(qs: seq<Question>, id: int): (r: Result<Option<Question>>)
    ensures r == Ok(None) <==> id !in QuestionIds(qs)
    ensures r.Ok? && r.value.Some? ==> r.value.value in qs && r.value.value.id == id
    ensures UniqueQuestionIds(qs) ==> r.Ok?
  {
    var rows := Filter(qs, HasId(id));
    assert UniqueQuestionIds(qs) ==> |rows| <= 1 by {
      if UniqueQuestionIds(qs) {
        AtMostOneWithId(qs, id);
      }
    }
    assert rows == [] <==> id !in QuestionIds(qs) by {
      FilterEmpty(qs, HasId(id));
    }
    OneOrNone(rows)
  }

  /** `Category.query.filter(Category.id == id).one_or_none()`. */
  function CategoryById(cs: seq<Category>, id: int): (r: Result<Option<Category>>)
    ensures r == Ok(None) <==> id !in CategoryIds(cs)
    ensures r.Ok? && r.value.Some? ==> r.value.value in cs && r.value.value.id == id
    ensures UniqueCategoryIds(cs) ==> r.Ok?
  {
    var rows := Filter(cs, CategoryHasId(id));
    assert UniqueCategoryIds(cs) ==> |rows| <= 1 by {
      if UniqueCategoryIds(cs) {
        AtMostOneCategoryWithId(cs, id);
      }
    }
    assert rows == [] <==> id !in CategoryIds(cs) by {
      FilterEmpty(cs, CategoryHasId(id));
    }
    OneOrNone(rows)
  }

  /** `cat.questions`: the questions whose `category` is the given id. */
  function QuestionsOf(qs: seq<Question>, categoryId: int): seq<Question> {
    Filter(qs, InCategory(categoryId))
  }

  /** The question table after `question.delete()` of the row with this id. */
  function RemoveQuestion(qs: seq<Question>, id: int): seq<Question> {
    Filter(qs, HasOtherId(id))
  }

  lemma FilterDropsOne<T(!new)>(before: seq<T>, x: T, after: seq<T>, p: T -> bool)
    requires forall y :: y in before ==> p(y)
    requires forall y :: y in after ==> p(y)
    requires !p(x)
    ensures Filter(before + [x] + after, p) == before + after
  {
    FilterKeepsAll(before, p);
    FilterKeepsAll(after, p);
    assert [x][1..] == [];
    assert Filter([x], p) == [];
    FilterAppend([x], after, p);
    assert Filter([x] + after, p) == after;
    FilterAppend(before, [x] + after, p);
    assert before + [x] + after == before + ([x] + after);
  }

  lemma OtherRowsHaveOtherIds(qs: seq<Question>, i: int)
    requires UniqueQuestionIds(qs)
    requires 0 <= i < |qs|
    ensures forall q :: q in qs[..i] ==> q.id != qs[i].id
    ensures forall q :: q in qs[i + 1..] ==> q.id != qs[i].id
  {
    forall q | q in qs[..i] ensures q.id != qs[i].id {
      var j :| 0 <= j < i && qs[j] == q;
    }
    forall q | q in qs[i + 1..] ensures q.id != qs[i].id {
      var j :| 0 <= j < |qs| - i - 1 && qs[i + 1..][j] == q;
      assert qs[i + 1 + j] == q;
    }
  }

  /** With unique ids, removal takes out exactly the row with that id and
      keeps every other row, in order. */
  lemma RemoveExactlyOne(qs: seq<Question>, i: int)
    requires UniqueQuestionIds(qs)
    requires 0 <= i < |qs|
    ensures RemoveQuestion(qs, qs[i].id) == qs[..i] + qs[i + 1..]
  {
    OtherRowsHaveOtherIds(qs, i);
    assert qs == qs[..i] + [qs[i]] + qs[i + 1..];
    FilterDropsOne(qs[..i], qs[i], qs[i + 1..], HasOtherId(qs[i].id));
  }

  lemma UniqueAfterRemove(qs: seq<Question>, i: int)
    requires UniqueQuestionIds(qs)
    requires 0 <= i < |qs|
    ensures UniqueQuestionIds(RemoveQuestion(qs, qs[i].id))
  {
    RemoveExactlyOne(qs, i);
    var r := qs[..i] + qs[i + 1..];
    forall a, b | 0 <= a < b < |r| ensures r[a].id != r[b].id {
      var a' := if a < i then a else a + 1;
      var b' := if b < i then b else b + 1;
      assert r[a] == qs[a'] && r[b] == qs[b'];
    }
  }

  /** The store after inserting a new question row. */
  function Insert(s: Store, q: Question): (t: Store)
    ensures t.categories == s.categories
    ensures QuestionIds(t.questions) == QuestionIds(s.questions) + {q.id}
    ensures Valid(s) && q.id !in QuestionIds(s.questions) ==> Valid(t)
    ensures forall x :: x in t.questions <==> x in s.questions || x == q
    ensures |t.questions| == |s.questions| + 1
    ensures q.id !in QuestionIds(s.questions) ==> QuestionById(t.questions, q.id) == Ok(Some(q))
  {
    var t := s.(questions := s.questions + [q]);
    assert t.questions[|s.questions|] == q;
    assert forall i :: 0 <= i < |s.questions| ==> t.questions[i] == s.questions[i];
    assert q.id !in QuestionIds(s.questions) ==> QuestionById(t.questions, q.id) == Ok(Some(q)) by {
      if q.id !in QuestionIds(s.questions) {
        LookupOfAppended(s.questions, q);
      }
    }
    t
  }

  lemma LookupOfAppended(qs: seq<Question>, q: Question)
    requires q.id !in QuestionIds(qs)
    ensures QuestionById(qs + [q], q.id) == Ok(Some(q))
  {
    FilterEmpty(qs, HasId(q.id));
    assert [q][1..] == [];
    assert Filter([q], HasId(q.id)) == [q];
    FilterAppend(qs, [q], HasId(q.id));
    assert Filter(qs + [q], HasId(q.id)) == [q];
  }

  lemma RemoveAppended(qs: seq<Question>, q: Question)
    requires q.id !in QuestionIds(qs)
    ensures RemoveQuestion(qs + [q], q.id) == qs
  {
    FilterKeepsAll(qs, HasOtherId(q.id));
    assert [q][1..] == [];
    assert Filter([q], HasOtherId(q.id)) == [];
    FilterAppend(qs, [q], HasOtherId(q.id));
  }

  /** An upper bound of the ids in use, at least 0. */
  function MaxId(qs: seq<Question>): (m: nat)
    ensures forall q :: q in qs ==> q.id <= m
  {
    if qs == [] then 0
    else
      var rest := MaxId(qs[1..]);
      assert forall q :: q in qs ==> q == qs[0] || q in qs[1..];
      if qs[0].id > rest then qs[0].id else rest
  }

  /** The store can always assign a new, non-negative id. */
  lemma FreshIdExists(qs: seq<Question>)
    ensures exists id: nat :: id !in QuestionIds(qs)
  {
    var id: nat := MaxId(qs) + 1;
    assert id !in QuestionIds(qs);
  }
}

=== FILE: pagination.dfy ===
/** The `pagination` helper: a fixed-size window over a list of formatted
    questions, chosen by the `page` query argument. */
module Pagination {
  import opened Wrappers
  import opened Slices

  const QuestionsPerPage: nat := 10

  /** `request.args.get('page', 1, type=int)`. The argument is None when the
      query string has no `page` or one that `int()` rejects. */
  function PageNumber(arg: Option<int>): int {
    if arg.Some? then arg.value else 1
  }

  /** `questions[start:end]` for the requested page, with Python's slice rules. */
  function Paginate<T>(items: seq<T>, arg: Option<int>): (r: seq<T>)
    ensures |r| <= QuestionsPerPage
    ensures exists lo, hi :: 0 <= lo <= hi <= |items| && r == items[lo..hi]
    ensures forall x :: x in r ==> x in items
  {
    var start := (PageNumber(arg) - 1) * QuestionsPerPage;
    SliceWidth(items, start, start + QuestionsPerPage);
    Slice(items, start, start + QuestionsPerPage)
  }

  /** A page number of 1 or more selects items [(page-1)*10, page*10), cut at the end. */
  lemma PageWindow<T>(items: seq<T>, page: int)
    requires page >= 1
    ensures Paginate(items, Some(page))
         == items[Min((page - 1) * QuestionsPerPage, |items|)..Min(page * QuestionsPerPage, |items|)]
  {
    var start := (page - 1) * QuestionsPerPage;
    SliceFromStart(items, start, start + QuestionsPerPage);
  }

  /** No page argument reads as the first page. */
  lemma DefaultPageIsFirst<T>(items: seq<T>)
    ensures Paginate(items, None) == items[..Min(QuestionsPerPage, |items|)]
  {
    PageWindow(items, 1);
  }

  /** A page of 1 or more is empty exactly when it starts at or past the last item. */
  lemma PageEmptyIff<T>(items: seq<T>, page: int)
    requires page >= 1
    ensures Paginate(items, Some(page)) == [] <==> (page - 1) * QuestionsPerPage >= |items|
  {
    PageWindow(items, page);
  }

  /** Page 0 is the slice [-10:0], which is always empty. */
  lemma PageZeroIsEmpty<T>(items: seq<T>)
    ensures Paginate(items, Some(0)) == []
  {
  }

  /** A negative page counts back from the end of the list: page -1 is the slice
      [-20:-10], so it is not empty once there are more than 10 items. */
  lemma NegativePageCountsFromEnd<T>(items: seq<T>, page: int)
    requires page <= -1
    ensures Paginate(items, Some(page))
         == items[Max(|items| + (page - 1) * QuestionsPerPage, 0)..Max(|items| + page * QuestionsPerPage, 0)]
  {
    var start := (page - 1) * QuestionsPerPage;
    SliceFromEnd(items, start, start + QuestionsPerPage);
  }

  /** Pages 1 to k, one after the other. */
  function FirstPages<T>(items: seq<T>, k: nat): seq<T> {
    if k == 0 then [] else FirstPages(items, k - 1) + Paginate(items, Some(k))
  }

  /** Pages 1, 2, ... tile the list: the first k pages are exactly its first
      10*k items, so every item is shown once, on one page. */
  lemma {:induction false} PagesTile<T>(items: seq<T>, k: nat)
    ensures FirstPages(items, k) == items[..Min(k * QuestionsPerPage, |items|)]
  {
    if k > 0 {
      PagesTile(items, k - 1);
      PageWindow(items, k);
      var a := Min((k - 1) * QuestionsPerPage, |items|);
      var b := Min(k * QuestionsPerPage, |items|);
      assert items[..a] + items[a..b] == items[..b];
    }
  }

  /** The item at index i is on page i/10 + 1, at position i%10. */
  lemma ItemOnItsPage<T>(items: seq<T>, i: int)
    requires 0 <= i < |items|
    ensures var page := i / QuestionsPerPage + 1;
            i % QuestionsPerPage < |Paginate(items, Some(page))|
            && Paginate(items, Some(page))[i % QuestionsPerPage] == items[i]
  {
    var page := i / QuestionsPerPage + 1;
    PageWindow(items, page);
    assert (page - 1) * QuestionsPerPage + i % QuestionsPerPage == i;
  }
}

=== FILE: quiz.dfy ===
/** `POST /quizzes`: draw a question the player has not seen, from one
    category or, for category id 0, from all of them. The random draw is a
    nondeterministic choice among the candidates. `fault` stands for a store
    that raises on every query. */
module Quiz {
  import opened Wrappers
  import opened Http
  import opened Requests
  import opened Models

  datatype QuizPayload = QuizPayload(question: Question)

  function Unseen(previous: seq<int>): Question -> bool {
    (q: Question) => q.id !in previous
  }

  function UnseenIn(previous: seq<int>, categoryId: int): Question -> bool {
    (q: Question) => q.category == categoryId && q.id !in previous
  }

  /** The questions the draw picks from: not among the previous ones and,
      unless the category id is 0, in the requested category. */
  function Candidates(qs: seq<Question>, previous: seq<int>, categoryId: int): (r: seq<Question>)
    ensures forall q :: q in r <==> q in qs && q.id !in previous && (categoryId != 0 ==> q.category == categoryId)
  {
    if categoryId == 0 then Filter(qs, Unseen(previous))
    else Filter(qs, UnseenIn(previous, categoryId))
  }

  /** The requests on which the handler raises an exception that no error
      handler answers (a server error): a `quiz_category` without an `id` key
      (a KeyError), or the draw from category 0 when every question has been
      seen (`random.choice` of an empty list). */
  function Crashes(s: Store, body: QuizBody, fault: bool): (r: bool)
    ensures r ==> Get(body.previousQuestions).Some? && Get(body.quizCategory).Some?
    ensures r && fault ==> body.quizCategory.value.id.Absent?
    ensures r && !body.quizCategory.value.id.Absent? ==> Candidates(s.questions, body.previousQuestions.value, 0) == []
  {
    && body.previousQuestions.Present?
    && body.quizCategory.Present?
    && (|| body.quizCategory.value.id.Absent?
        || (&& body.quizCategory.value.id == Present(0)
            && !fault
            && Candidates(s.questions, body.previousQuestions.value, 0) == []))
  }

  /** The request names both keys and a category id. */
  predicate WellFormed(body: QuizBody) {
    body.previousQuestions.Present? && body.quizCategory.Present? && body.quizCategory.value.id.Present?
  }

  function Previous(body: QuizBody): seq<int>
    requires WellFormed(body)
  {
    body.previousQuestions.value
  }

  function RequestedCategory(body: QuizBody): int
    requires WellFormed(body)
  {
    body.quizCategory.value.id.value
  }

  method NextQuestion(s: Store, body: QuizBody, fault: bool) returns (r: Result<QuizPayload>)
    requires !Crashes(s, body, fault)
    ensures Answered(r)
    ensures r.Fail? ==> r.raised.status in {BadRequest, NotFound, Unprocessable}
    ensures Get(body.previousQuestions).None? || Get(body.quizCategory).None? ==> r == Fail(Abort(BadRequest))
    ensures !WellFormed(body) ==> r.Fail?
    ensures fault ==> r.Fail?
    ensures (&& body.previousQuestions.Present? && body.quizCategory.Present? && fault)
            ==> r == Fail(Abort(Unprocessable))
    ensures (&& body.previousQuestions.Present? && body.quizCategory.Present?
             && body.quizCategory.value.id.Null?)
            ==> r == Fail(Abort(Unprocessable))
    ensures r.Ok? ==> WellFormed(body) && r.value.question in s.questions
    ensures r.Ok? ==> r.value.question.id !in Previous(body)
    ensures r.Ok? && RequestedCategory(body) != 0 ==> r.value.question.category == RequestedCategory(body)
    ensures WellFormed(body) && !fault && RequestedCategory(body) == 0 ==> r.Ok?
    ensures (&& WellFormed(body) && !fault && RequestedCategory(body) != 0
             && RequestedCategory(body) !in CategoryIds(s.categories))
            ==> r == Fail(Abort(NotFound))
    ensures (&& WellFormed(body) && !fault && RequestedCategory(body) != 0 && UniqueCategoryIds(s.categories)
             && Candidates(s.questions, Previous(body), RequestedCategory(body)) == [])
            ==> r == Fail(Abort(NotFound))
    ensures (WellFormed(body) && !fault && RequestedCategory(body) != 0 && UniqueCategoryIds(s.categories))
            ==> (r.Ok? <==> && RequestedCategory(body) in CategoryIds(s.categories)
                            && Candidates(s.questions, Previous(body), RequestedCategory(body)) != [])
  {
    if body.previousQuestions.Absent? || body.previousQuestions.Null?
       || body.quizCategory.Absent? || body.quizCategory.Null? {
      return Fail(Abort(BadRequest));
    }
    var previous := body.previousQuestions.value;
    var idField := body.quizCategory.value.id;
    if idField == Present(0) {
      if fault {
        return Fail(Abort(Unprocessable));
      }
      var pool := Candidates(s.questions, previous, 0);
      assert pool[0] in pool;
      var q :| q in pool;
      return Ok(QuizPayload(q));
    }
    // `int(question_category["id"])` raises inside the `try` for a null id.
    if fault || idField.Null? {
      return Fail(Abort(Unprocessable));
    }
    var id := idField.value;
    var found := Rescue(Query(fault, CategoryById(s.categories, id)), Unprocessable);
    if found.Fail? {
      return Fail(found.raised);
    }
    if found.value.None? {
      return Fail(Abort(NotFound));
    }
    if |QuestionsOf(s.questions, found.value.value.id)| == 0 {
      EmptyCategoryHasNoCandidates(s.questions, previous, id);
      return Fail(Abort(NotFound));
    }
    var pool := Candidates(s.questions, previous, id);
    if |pool| == 0 {
      return Fail(Abort(NotFound));
    }
    assert pool[0] in pool;
    var q :| q in pool;
    return Ok(QuizPayload(q));
  }

  /** The check that the category has questions at all never decides the
      outcome: a category without questions has no candidates either. */
  lemma EmptyCategoryHasNoCandidates(qs: seq<Question>, previous: seq<int>, categoryId: int)
    requires categoryId != 0
    requires QuestionsOf(qs, categoryId) == []
    ensures Candidates(qs, previous, categoryId) == []
  {
    FilterEmpty(qs, InCategory(categoryId));
    FilterEmpty(qs, UnseenIn(previous, categoryId));
  }
}

=== FILE: requests.dfy ===
/** The JSON request bodies the handlers read. */
module Requests {
  import opened Wrappers

  /** One key of a JSON object: missing, explicitly null, or holding a value. */
  datatype Field<T> = Absent | Null | Present(value: T)

  /** `body.get(key, None)`: a missing key and a null value both read as None. */
  function Get<T>(f: Field<T>): Option<T> {
    if f.Present? then Some(f.value) else None
  }

  /** Body of `POST /questions`. */
  datatype CreateBody = CreateBody(
    question: Field<string>,
    answer: Field<string>,
    category: Field<int>,
    difficulty: Field<int>)

  /** Body of `POST /questions/search`. */
  datatype SearchBody = SearchBody(searchTerm: Field<string>)

  /** The `quiz_category` object of a quiz request; only its `id` key is read. */
  datatype QuizCategory = QuizCategory(id: Field<int>)

  /** Body of `POST /quizzes`. */
  datatype QuizBody = QuizBody(
    previousQuestions: Field<seq<int>>,
    quizCategory: Field<QuizCategory>)
}

=== FILE: search.dfy ===
/** `POST /questions/search`: the questions whose text matches
    `ILIKE '%<term>%'`, with the term put into the pattern unescaped.
    `fault` stands for a store that raises on every query. */
module Search {
  import opened Wrappers
  import opened Http
  import opened Requests
  import opened Models
  import opened Like

  datatype SearchPayload = SearchPayload(
    questions: seq<Question>,
    totalQuestions: nat,
    searchCount: nat,
    currentCategory: int)

  function MatchesPattern(toks: seq<Token>): Question -> bool {
    (q: Question) => Matches(toks, q.question)
  }

  /** `Question.query.filter(Question.question.ilike(pattern)).all()`; the
      store raises for a malformed pattern. */
  function QuestionsLike(qs: seq<Question>, pattern: string): Result<seq<Question>> {
    match Compile(pattern)
    case None => Fail(StoreError)
    case Some(toks) => Ok(Filter(qs, MatchesPattern(toks)))
  }

  /** The handler for a given way of turning the term into the pattern. */
  function SearchWith(s: Store, body: SearchBody, fault: bool, pattern: string -> string): Result<SearchPayload> {
    match Get(body.searchTerm)
    case None => Fail(Abort(BadRequest))
    case Some(term) =>
      var found :- Rescue(Query(fault, QuestionsLike(s.questions, pattern(term))), Unprocessable);
      var total :- Rescue(Query(fault, Ok(|s.questions|)), Unprocessable);
      Ok(SearchPayload(found, total, |found|, 0))
  }

  /** The pattern as the source builds it: `"%{}%".format(search_term)`. */
  function RawPattern(term: string): string {
    "%" + term + "%"
  }

  /** The pattern with the term's special characters escaped. */
  function EscapedPattern(term: string): string {
    "%" + EscapeLike(term) + "%"
  }

  /** `POST /questions/search` as written. */
  function QuestionSearch(s: Store, body: SearchBody, fault: bool): (r: Result<SearchPayload>)
    ensures Answered(r)
    ensures Get(body.searchTerm).None? ==> r == Fail(Abort(BadRequest))
    ensures Get(body.searchTerm).Some? ==> (r.Ok? <==> !fault)
    ensures Get(body.searchTerm).Some? && fault ==> r == Fail(Abort(Unprocessable))
    ensures r.Fail? ==> r.raised.status in {BadRequest, Unprocessable}
    ensures r.Ok? ==> r.value.searchCount == |r.value.questions|
    ensures r.Ok? ==> r.value.totalQuestions == |s.questions| && r.value.currentCategory == 0
    ensures r.Ok? ==> forall q :: (q in r.value.questions
                     <==> q in s.questions && ILike(q.question, RawPattern(body.searchTerm.value)) == Some(true))
  {
    assert body.searchTerm.Present? ==> Compile(RawPattern(body.searchTerm.value)).Some? by {
      if body.searchTerm.Present? {
        ContainsPatternIsWellFormed(body.searchTerm.value);
      }
    }
    SearchWith(s, body, fault, RawPattern)
  }

  /** For a term without `%`, `_` or a backslash, a search returns exactly
      the questions whose text contains the term, ignoring case. */
  lemma PlainTermFindsContaining(s: Store, term: string)
    requires Plain(term)
    ensures var r := QuestionSearch(s, SearchBody(Present(term)), false);
            && r.Ok?
            && forall q :: q in r.value.questions <==> q in s.questions && ContainsIgnoringCase(q.question, term)
  {
    forall q | q in s.questions {
      PlainSearchIsContainment(q.question, term);
    }
  }

  /** The tokens of the pattern the source builds for the term "a_c". */
  lemma CompileUnderscoreTerm()
    ensures Compile(RawPattern("a_c")) == Some([AnyString, Literal('a'), AnyChar, Literal('c'), AnyString])
  {
    var toks := [AnyString, Literal('a'), AnyChar, Literal('c'), AnyString];
    assert RawPattern("a_c") == "%a_c%";
    assert "%"[1..] == "" && "c%"[1..] == "%" && "_c%"[1..] == "c%";
    assert "a_c%"[1..] == "_c%" && "%a_c%"[1..] == "a_c%";
    var none: seq<Token> := [];
    assert [AnyString] + none == [AnyString];
    assert Compile("%") == Some([AnyString]);
    assert [Literal('c')] + [AnyString] == toks[3..];
    assert Compile("c%") == Some(toks[3..]);
    assert [AnyChar] + toks[3..] == toks[2..];
    assert Compile("_c%") == Some(toks[2..]);
    assert [Literal('a')] + toks[2..] == toks[1..];
    assert Compile("a_c%") == Some(toks[1..]);
    assert [AnyString] + toks[1..] == toks;
  }

  /** The pattern for "a_c" matches the text "abc". */
  lemma UnderscorePatternMatches()
    ensures ILike("abc", RawPattern("a_c")) == Some(true)
  {
    var toks := [AnyString, Literal('a'), AnyChar, Literal('c'), AnyString];
    CompileUnderscoreTerm();
    assert Matches(toks[4..], "");
    assert Matches(toks[3..], "c");
    assert Matches(toks[2..], "bc");
    assert Matches(toks[1..], "abc");
    assert Matches(toks, "abc");
  }

  /** The term "a_c" finds the question "abc", which does not contain it:
      `_` in the term matches any character. */
  lemma UnderscoreMatchesAnyCharacter()
    ensures ILike("abc", RawPattern("a_c")) == Some(true)
    ensures !ContainsIgnoringCase("abc", "a_c")
    ensures var r := QuestionSearch(Store([Question(1, "abc", "x", 1, 1)], []), SearchBody(Present("a_c")), false);
            r.Ok? && r.value.questions == [Question(1, "abc", "x", 1, 1)]
  {
    UnderscorePatternMatches();
    assert !OccursAt("abc", "a_c", 0) by {
      assert LowerAll("abc")[1] == 'b';
      assert LowerAll("a_c")[1] == '_';
    }
    var q := Question(1, "abc", "x", 1, 1);
    var r := QuestionSearch(Store([q], []), SearchBody(Present("a_c")), false);
    assert q in r.value.questions;
    assert |r.value.questions| <= 1 by {
      CompileUnderscoreTerm();
    }
  }

  /** The search the documentation of the route describes ("any questions for
      whom the search term is a substring"): the term escaped before it is
      put into the pattern. */
  function EscapedQuestionSearch(s: Store, body: SearchBody, fault: bool): (r: Result<SearchPayload>)
    ensures Answered(r)
    ensures Get(body.searchTerm).None? ==> r == Fail(Abort(BadRequest))
    ensures Get(body.searchTerm).Some? ==> (r.Ok? <==> !fault)
    ensures Get(body.searchTerm).Some? && fault ==> r == Fail(Abort(Unprocessable))
    ensures r.Fail? ==> r.raised.status in {BadRequest, Unprocessable}
    ensures r.Ok? ==> r.value.searchCount == |r.value.questions|
    ensures r.Ok? ==> r.value.totalQuestions == |s.questions| && r.value.currentCategory == 0
    ensures r.Ok? ==> forall q :: (q in r.value.questions
                     <==> q in s.questions && ContainsIgnoringCase(q.question, body.searchTerm.value))
  {
    assert body.searchTerm.Present? ==>
             && Compile(EscapedPattern(body.searchTerm.value)).Some?
             && forall q :: q in s.questions ==>
                  ILike(q.question, EscapedPattern(body.searchTerm.value))
                  == Some(ContainsIgnoringCase(q.question, body.searchTerm.value)) by {
      if body.searchTerm.Present? {
        var term := body.searchTerm.value;
        ContainsPatternCompiles(term);
        forall q | q in s.questions
          ensures ILike(q.question, EscapedPattern(term)) == Some(ContainsIgnoringCase(q.question, term))
        {
          EscapedSearchIsContainment(q.question, term);
        }
      }
    }
    SearchWith(s, body, fault, EscapedPattern)
  }
}

=== FILE: slices.dfy ===
/** Python's `s[start:stop]` on a list, negative bounds included. */
module Slices {

  function Min(a: int, b: int): int {
    if a <= b then a else b
  }

  function Max(a: int, b: int): int {
    if a <= b then b else a
  }

  /** How Python reads one slice bound against a list of length n: a
      negative bound counts from the end, and the result is clipped to [0, n]. */
  function Bound(i: int, n: nat): (b: nat)
    ensures b <= n
    ensures 0 <= i ==> b == Min(i, n)
    ensures i < 0 ==> b == Max(i + n, 0)
  {
    if i < 0 then (if i + n < 0 then 0 else i + n)
    else if i > n then n
    else i
  }

  /** `s[start:stop]` with the default step of 1. */
  function Slice<T>(s: seq<T>, start: int, stop: int): (r: seq<T>)
    ensures |r| <= |s|
    ensures exists lo, hi :: 0 <= lo <= hi <= |s| && r == s[lo..hi]
  {
    var lo, hi := Bound(start, |s|), Bound(stop, |s|);
    if lo < hi then s[lo..hi]
    else
      assert s[0..0] == [];
      []
  }

  /** A slice never holds more elements than its bounds are apart. */
  lemma SliceWidth<T>(s: seq<T>, start: int, stop: int)
    requires start <= stop
    ensures |Slice(s, start, stop)| <= stop - start
  {
  }

  /** Non-negative bounds select the window they name, cut at the end of the list. */
  lemma SliceFromStart<T>(s: seq<T>, start: int, stop: int)
    requires 0 <= start <= stop
    ensures Slice(s, start, stop) == s[Min(start, |s|)..Min(stop, |s|)]
  {
  }

  /** Negative bounds select the same window counted back from the end. */
  lemma SliceFromEnd<T>(s: seq<T>, start: int, stop: int)
    requires start <= stop < 0
    ensures Slice(s, start, stop) == s[Max(start + |s|, 0)..Max(stop + |s|, 0)]
  {
  }
}

=== FILE: wrappers.dfy ===
/** A value that may be missing. */
module Wrappers {

  datatype Option<T> = None | Some(value: T)
}
